=== FILE: README.md ===
# tonecraft-panel: a Dafny model of the control panel

tonecraft-panel is a browser control panel for a real-time audio processing
backend. A user picks a reference audio file, an input and an output device and
a few processing parameters. The user then starts or stops processing on the
backend over HTTP. This project models the following parts:

- the HTTP client `audioAPI` (module `Api`). It covers the multipart `start`
  call, `stop`, the JSON `updateConfig`, `detectDevices` and the shared
  "not ok means reject" rule.
- the drop zone `AudioUpload`, which hands over only the first file and only
  an `audio/*` one (module `AudioUpload`).
- the player card `AudioPreview`: the play flag, the progress value and the
  `m:ss` labels (module `AudioPreview`).
- the "Audio Processing Studio" page `YellowAudio`. It covers device loading
  with auto-selection, the warm-up lifecycle, which panel controls honour the
  page's busy flag, and the button label (module `YellowAudio`).
- the main page `Index`. It covers device loading with a fixed fallback, the
  loading flag around start and stop, and the button (module `IndexPage`).
  Its debounced config push is modelled separately (module `IndexDebounce`).

Supporting modules:

- `Wrappers` holds `Option` and `Result`.
- `Browser` holds the `File` record (name, MIME type, size) and `startsWith`.

Modelling decisions:

- Each React handler is one atomic step from the state before the click to
  the state after the promise settles.
- What `fetch` answered is a parameter. It is either `NetworkFailure` or a
  response with its `ok` flag, status text and parsed body.
- Page handlers take a plain `accepted` flag. The `...Wired` variants and the
  `StartArgs` lemmas obtain that flag from the client model instead.
- A JavaScript object literal is a `map<string, JsValue>`, and a missing key
  is `undefined`. This is what lets the model see the page and the client
  disagree on property names.
- The debounce is modelled twice and proved equal:
  - `Run` replays the `setTimeout`/`clearTimeout` pair against timestamped
    edits;
  - `Reference` states, edit by edit, which edits end in a push.

Facts about the two pages that shape the model:

- `Index` never auto-selects a device after loading.
- `YellowAudio` overwrites any earlier choice with the first listed id, and
  it has no fallback list when detection fails.
- Neither page checks that a selected id is in the fetched lists.
- Neither page guards against stale responses.
- A click while running stops the session; it is not rejected.
- `Index` has no "starting" state apart from `isLoading`, and it never
  disables its controls while running.
- Only `Index` pushes config updates.
- On `YellowAudio`, the busy flag reaches only the language select and the
  drop zone. The device selectors and sliders drop the `disabled` prop they
  are given (see Findings). The model's `Locking` parameter picks between
  this behaviour (`AsWritten`) and the evident intent (`AllPanels`).

## Model

| member | source | states |
|---|---|---|
| Api.ToObject | src/lib/api.ts:1-9 | a well-typed `AudioConfig` object carries all four numeric properties as numbers, and a `referenceAudio` key exactly when a file is given |
| Api.ToText | src/lib/api.ts:23-26 | `config[key].toString()` fails exactly when the key is absent, and then with a TypeError naming that key |
| Api.StartForm | src/lib/api.ts:20-33 | building the form fails exactly when one of diffusionSteps, chunkSize, crossfade, extraContext is missing, with a TypeError on a missing one. Otherwise the field names are diffusion_steps, chunk_size, crossfade, extra_context, input_device, output_device in that order, plus reference_audio last exactly when `referenceAudio` is truthy |
| Api.StartFormRoundTrip | src/lib/api.ts:19-33 | decoding the multipart payload `start` builds from a well-typed config gives back the same config, file included |
| Api.Settle | src/lib/api.ts:40-42 | a call resolves exactly when the response is ok, and then with the response body. A non-ok response rejects with "Failed to <operation>: " followed by the status text. A transport failure rejects |
| Api.Start | src/lib/api.ts:19-43 | no request goes out exactly when building the form throws, and the call rejects with that error. Otherwise it sends one `POST /start` with the multipart body, and the call resolves exactly when the form was built and the response is ok. A network failure rejects with that error, and a non-ok response rejects with "Failed to start: " followed by the status text |
| Api.Stop | src/lib/api.ts:45-53 | sends `POST /stop` without a body and resolves exactly when the response is ok. A network failure rejects with that error, and a non-ok response rejects with "Failed to stop: " followed by the status text |
| Api.UpdateConfig | src/lib/api.ts:55-67 | sends `POST /config` with a JSON content type and the object as the body, and resolves exactly when the response is ok. A network failure rejects with that error, and a non-ok response rejects with "Failed to update config: " followed by the status text |
| Api.DetectDevices | src/lib/api.ts:69-77 | sends `GET /detect-devices`, resolves exactly when the response is ok, and then returns the parsed body. A network failure rejects with that error, and a non-ok response rejects with "Failed to detect devices: " followed by the status text |
| AudioUpload.OnDrop | src/components/AudioUpload.tsx:17-25 | every drop clears the drag highlight and never reports `null`. It selects a file exactly when the list is non-empty and the first file's MIME type starts with "audio/", and the file it selects is the first one |
| AudioUpload.HandleRemoveFile | src/components/AudioUpload.tsx:38-40 | after a removal the parent holds no file, whatever it held before |
| AudioUpload.DropKeepsAudioOnly | src/components/AudioUpload.tsx:17-40 | from a state with no file or an audio file, neither a drop nor a removal can leave a non-audio file selected |
| AudioUpload.OnlyFirstFileCounts | src/components/AudioUpload.tsx:18-21 | a drop's outcome does not depend on any file after the first |
| AudioPreview.TogglePlayback | src/components/AudioPreview.tsx:47-57 | with an audio element the play flag flips, and without one nothing changes. The clock and the duration are untouched |
| AudioPreview.ToggleTwiceRestores | src/components/AudioPreview.tsx:47-57 | two presses bring the card back to its previous state |
| AudioPreview.OnEnded | src/components/AudioPreview.tsx:34 | the `ended` event stops playback and keeps the clock and the duration |
| AudioPreview.PressAfterEndedPlays | src/components/AudioPreview.tsx:34-57 | after the track ends, the next press starts playback again |
| AudioPreview.Progress | src/components/AudioPreview.tsx:65 | the progress is 0 without a positive duration. Otherwise progress times duration equals current time times 100, and it lies between 0 and 100 while the clock is within the track |
| AudioPreview.Decimal | src/components/AudioPreview.tsx:62 | a whole number renders as a non-empty digit string, one digit long exactly when the number is below 10 and at most two digits below 100 |
| AudioPreview.DecimalNoLeadingZero | src/components/AudioPreview.tsx:62 | the rendering has no leading zero: it starts with '0' only for zero itself |
| AudioPreview.DecimalValue | src/components/AudioPreview.tsx:62 | the rendered digits denote the number that was rendered |
| AudioPreview.PadStart | src/components/AudioPreview.tsx:62 | `padStart` reaches the width (or keeps a longer string), ends with the original string and fills the front with the fill character |
| AudioPreview.TwoDigits | src/components/AudioPreview.tsx:61-62 | a number below 100, rendered and padded to two characters with "0", is exactly two digits that denote the same number |
| AudioPreview.FormatTime | src/components/AudioPreview.tsx:59-63 | a label is digits, a colon in the third position from the end, then two digits |
| AudioPreview.FormatTimeNoLeadingZero | src/components/AudioPreview.tsx:59-63 | the minutes are not padded: a label starts with '0' only for times under one minute |
| AudioPreview.FormatTimeFields | src/components/AudioPreview.tsx:60-62 | the label's minutes field denotes the whole minutes of the time, and its seconds field denotes the remaining seconds |
| AudioPreview.MountShowsZero | src/components/AudioPreview.tsx:14-16 | on mount the card is paused, the bar is empty and both labels read "0:00" |
| AudioPreview.FormatTimeRoundTrip | src/components/AudioPreview.tsx:59-63 | reading a label back as `m:ss` gives exactly the time it was made from |
| YellowAudio.LoadDevices | src/pages/YellowAudio.tsx:51-67 | a failed detection changes nothing. A successful one replaces both lists and selects the first id of each non-empty list, keeping the old id for an empty list. Nothing else changes |
| YellowAudio.LoadedSelectionIsListed | src/pages/YellowAudio.tsx:53-59 | after a successful load, the selection of each non-empty list names a device in that list |
| YellowAudio.LoadDevicesIdempotent | src/pages/YellowAudio.tsx:51-67 | loading the same answer twice gives the same state as loading it once |
| YellowAudio.Click | src/pages/YellowAudio.tsx:87-89 | before the start request settles, a start opens the warm-up dialog and sets warming up. A stop changes nothing yet. The configuration is untouched |
| YellowAudio.HandleStartStop | src/pages/YellowAudio.tsx:69-119 | a stop ends the session exactly when accepted. A start runs exactly when accepted and always clears warming up and the dialog. The configuration never changes |
| YellowAudio.LabelAcrossStartAndStop | src/pages/YellowAudio.tsx:266-283 | during a start the caption is "Starting..." and the button is disabled. An accepted start shows "Stop Processing", an accepted stop shows "Start Processing", and a refused request keeps the caption |
| YellowAudio.PressNeedsReadyButton | src/pages/YellowAudio.tsx:266 | a press does nothing unless a file and both devices are chosen and no warm-up is in progress. When they are, it flips running exactly when accepted |
| YellowAudio.OnlyLanguageLockedWhenBusy | src/pages/YellowAudio.tsx:147-228 | while warming up or running, drops and language changes are ignored. Otherwise a listed language is applied and a drop on an empty zone selects its first file if that is audio. Device, sample-duration and chunk-size edits always take effect, because their components drop the `disabled` prop |
| YellowAudio.AllPanelsLockedExactlyWhenBusy | src/pages/YellowAudio.tsx:121 | with every panel control honouring the busy flag, a setting is locked exactly while warming up or running. A locked edit is ignored, and an unlocked one (a listed language, for the language select) is applied |
| YellowAudio.ParametersDriftWhileRunning | src/pages/YellowAudio.tsx:210-219 | on a running page a chunk-size edit takes effect and the session keeps running, so the page's parameters differ from those the session started with |
| YellowAudio.StartArgs | src/pages/YellowAudio.tsx:92-99 | the start object has exactly the keys sampleDuration, chunkSize, inputDevice, outputDevice and language, plus referenceAudio when a file is selected, with the page's values |
| YellowAudio.StartNeverRunsAsWritten | src/pages/YellowAudio.tsx:91-117 | with that object, `audioAPI.start` throws a TypeError on diffusionSteps before sending anything, so the page is not running afterwards whatever the backend would answer |
| YellowAudio.ReplayStaysSettled | src/pages/YellowAudio.tsx:69-119 | between user actions the page is never left warming up or with the dialog open |
| YellowAudio.LanguageFrozenWhileRunning | src/pages/YellowAudio.tsx:225-229 | as written, until a stop is accepted a running session stays running and keeps the language it started with |
| YellowAudio.ParametersFrozenWhileRunning | src/pages/YellowAudio.tsx:121 | with every panel control honouring the busy flag, a running session stays running with the devices, sample duration, chunk size and language it started with, until a stop is accepted |
| YellowAudio.ReplayKeepsAudioFile | src/pages/YellowAudio.tsx:147-157 | no sequence of actions leaves a non-audio file selected |
| YellowAudio.ReplayKeepsListedLanguage | src/pages/YellowAudio.tsx:20-26 | the selected language is always one of the five codes the select lists |
| YellowAudio.MountInvariants | src/pages/YellowAudio.tsx:32-44 | from the mount state the button reads "Start Processing" and is disabled. After any actions the page is settled, holds no non-audio file and has a listed language |
| IndexPage.LoadDevices | src/pages/Index.tsx:55-78 | a successful detection installs the detected lists. Any failure installs the fallback lists with ids default, mic1, mic2 and default, speakers1, headphones. The form, running and loading are untouched |
| IndexPage.LoadDevicesIdempotent | src/pages/Index.tsx:55-78 | loading the same answer twice gives the same state as loading it once |
| IndexPage.Click | src/pages/Index.tsx:80-100 | before either request settles, the page is loading and the button is disabled |
| IndexPage.HandleStartStop | src/pages/Index.tsx:80-127 | after a request settles the page is not loading. Running flips exactly when the request was accepted, and the form and lists are untouched |
| IndexPage.PressNeedsReadyButton | src/pages/Index.tsx:245 | a press does nothing unless a file and both devices are chosen and no request is pending. When they are, it flips running exactly when accepted |
| IndexPage.StartArgsAsWritten | src/pages/Index.tsx:102-109 | the start object as written has the keys sampleDuration (holding the diffusion steps), chunkSize, inputDevice, outputDevice and language "en", plus referenceAudio when a file is selected; chunkSize and both devices hold the form's values |
| IndexPage.StartAlwaysFailsAsWritten | src/pages/Index.tsx:99-126 | with that object, `audioAPI.start` throws a TypeError on diffusionSteps before any request, so the page ends neither running nor loading |
| IndexPage.StartArgs | src/pages/Index.tsx:102-109 | the corrected start object builds a valid form, and that form decodes to exactly the page's diffusion steps, chunk size, crossfade, extra context, devices and file |
| IndexPage.WiredStartRunsIffAccepted | src/pages/Index.tsx:99-126 | with the corrected object, a start sends one multipart `POST /start` carrying every form value, and the page runs exactly when the backend accepts |
| IndexPage.WiredStopEndsIffAccepted | src/pages/Index.tsx:81-98 | a stop ends the session exactly when the backend accepts, and the page is not left loading |
| IndexPage.ReplayNeverLeavesLoading | src/pages/Index.tsx:80-127 | between user actions the page is never left loading |
| IndexPage.RemovedFileBlocksStop | src/pages/Index.tsx:149-153 | removing the file of a running session disables the button, so the session keeps running and a press does nothing |
| IndexPage.ReplayKeepsAudioFile | src/pages/Index.tsx:149-159 | no sequence of actions leaves a non-audio file selected |
| IndexPage.MountInvariants | src/pages/Index.tsx:14-24 | the mount state's button is disabled. After any actions the page is not loading and holds no non-audio file |
| IndexDebounce.RunMatchesReference | src/pages/Index.tsx:33-53 | the replayed timer sends exactly the edit-by-edit pushes, after an earlier pending push if nothing clears it first |
| IndexDebounce.ReferenceCharacterised | src/pages/Index.tsx:33-53 | a push is sent if and only if some edit changed a dependency, passed the gate and was not followed within 500 ms by another such change. It is sent 500 ms after that edit with the values the edit left |
| IndexDebounce.PushesCharacterised | src/pages/Index.tsx:33-53 | the same if-and-only-if for a page session that starts from the form on mount |
| IndexDebounce.BurstReference | src/pages/Index.tsx:45-51 | in a burst of changes each less than 500 ms apart, only the last edit can yield a push |
| IndexDebounce.BurstPushesAtMostOnce | src/pages/Index.tsx:45-51 | such a burst sends at most one push: the final values, 500 ms after the last edit, and only when a device or a file is set at the end |
| IndexDebounce.FileSelectionAloneNeverPushes | src/pages/Index.tsx:34-53 | selecting or removing files alone never sends a push, because the file is not in the dependency list |
| IndexDebounce.PushObject | src/pages/Index.tsx:35-42 | the pushed object has exactly the six keys diffusionSteps, chunkSize, crossfade, extraContext, inputDevice and outputDevice, each holding the watched value of the same name |
| IndexDebounce.SendPostsConfig | src/pages/Index.tsx:45-48 | every push goes out as a JSON `POST /config` of that object, whatever the backend answers |

## Left out

- Transport details are left out: `fetch` itself, the base URL, `FormData` internals and JSON parsing of response bodies. A reply is a parameter, and a body that fails to parse is not distinguished from another rejection.
- Number rendering is abstract. `Number.prototype.toString` for non-integers, NaN and the infinities is not modelled; a multipart number field keeps the number it renders (`NumberText`).
- Presentation and logging are left out: toasts, `console.error`, icons, the megabyte rendering of file sizes, and the `Math.random` audio visualiser.
- Several browser side effects are left out:
  - audio element `play()`/`pause()` and their promises;
  - object URLs;
  - the `timeupdate` and `loadedmetadata` listeners, which only copy the element's clock and duration into state.
- The drop zone's drag-enter and drag-leave callbacks and its own `accept` filter are left out. `acceptedFiles` is whatever the library hands over, and only the highlight reset after a drop is modelled.
- Concurrency is left out. Each handler is atomic, so overlapping requests, double clicks and responses arriving after another action are not modelled.
- The device load on mount is not sequenced with other actions; `LoadDevices` is a step that can be applied to any state.
- The debounce model has these limits:
  - the page stays mounted, so clearing the timer on unmount is not modelled;
  - an edit stamped exactly at a timer's due time is taken to come after the timer fired;
  - an edit that re-sets a value to what it already was does not re-run the effect, so only value changes count.
- AudioPreview.FormatTime: covers whole non-negative seconds only. The `Math.floor` of fractional times and labels for NaN or infinite durations are not modelled.
- AudioPreview.Progress: real arithmetic, not IEEE doubles.
- AudioPreview.Decimal: renders every whole number as plain digits. JavaScript switches to exponent form ("1e+21") from 10^21, and above 2^53 not every whole number is a double. Labels for such times are not modelled.
- Slider ranges and steps are not enforced. The slider widget's own clamping is not part of this model.
- DeviceSelector and ParameterSlider are modelled only through what they pass on: the value callback, and no `disabled` flag. Pointer and keyboard input are not told apart. As written, a control that ignores the busy flag is taken to be reachable from the keyboard even when its card blocks the pointer.
- AppLayout and AppSidebar are presentational wrappers. They are not part of this model.

## Findings

| source | as written | input that shows it | evidently intended | confidence | as-written member | corrected member |
|---|---|---|---|---|---|---|
| src/pages/Index.tsx:102-109 | The start object puts the diffusion steps under `sampleDuration`, adds `language`, and omits `diffusionSteps`, `crossfade` and `extraContext`. `audioAPI.start` then calls `toString()` on `config.diffusionSteps` (src/lib/api.ts:23), which is `undefined`. It throws a TypeError before any request, so the page can never start processing. | Any start press, e.g. the form on mount with a file and both devices chosen, whatever the backend would answer | Pass the page's own values under the client's names, as the same page's config push spells them (src/pages/Index.tsx:35-42) | high; not executed | IndexPage.StartAlwaysFailsAsWritten | IndexPage.WiredStartRunsIffAccepted |
| src/pages/YellowAudio.tsx:171-219 | The page passes `disabled={isConfigDisabled}` to both `DeviceSelector`s and both `ParameterSlider`s, but neither component declares that prop (src/components/DeviceSelector.tsx:12-18, src/components/ParameterSlider.tsx:5-14), so it is dropped. Only the dimmed card's `pointer-events-none` stands in its way, and the keyboard still reaches the controls. | Latent as written: this page's start object also lacks `diffusionSteps`, so `start` always rejects (`YellowAudio.StartNeverRunsAsWritten`), the page is busy only until that rejection settles and it never runs. Once start succeeds, after the start object is fixed: during a running session, Tab to the Chunk Size slider and press the right arrow key. `setChunkSize` runs and the page shows a chunk size the session was not started with | These four controls are disabled while warming up or running, like the language select beside them (src/pages/YellowAudio.tsx:228) | low (latent behind the start defect); not executed | YellowAudio.ParametersDriftWhileRunning | YellowAudio.ParametersFrozenWhileRunning |

`YellowAudio` builds its start object the same way (src/pages/YellowAudio.tsx:92-99), so its start throws too. `YellowAudio.StartNeverRunsAsWritten` shows this. That page holds no crossfade or extra-context values, so no intended mapping is evident from its code. Its backend outcome therefore stays an abstract flag in `YellowAudio.HandleStartStop`.

=== FILE: api.dfy ===
/**
 * The REST client `audioAPI` (src/lib/api.ts).
 *
 * `fetch` is not modelled: every operation takes the `Reply` the network would
 * deliver and returns a `Call` holding the request it sends (none when it throws
 * before sending) and what the returned promise settles to.
 */
module Api {
  import opened Wrappers
  import opened Browser

  /** A JavaScript value as the pages place it in a config object. */
  datatype JsValue = Num(n: real) | Str(s: string) | FileRef(file: File)

  /** A plain JavaScript object. A key that is absent, or bound to `undefined`, is not in the map. */
  type JsObject = map<string, JsValue>

  function Lookup(o: JsObject, key: string): Option<JsValue> {
    if key in o then Some(o[key]) else None
  }

  /** JavaScript truthiness of a property value (NaN is not modelled). */
  predicate Truthy(v: Option<JsValue>) {
    match v
    case None => false
    case Some(Num(n)) => n != 0.0
    case Some(Str(s)) => s != ""
    case Some(FileRef(_)) => true
  }

  datatype Device = Device(id: string, name: string)

  /** The body `GET /detect-devices` answers with. */
  datatype DeviceLists = DeviceLists(inputDevices: seq<Device>, outputDevices: seq<Device>)

  /** The `AudioConfig` interface: the shape `start` is written against. */
  datatype AudioConfig = AudioConfig(
    diffusionSteps: real,
    chunkSize: real,
    crossfade: real,
    extraContext: real,
    inputDevice: string,
    outputDevice: string,
    referenceAudio: Option<File>)

  /** The object literal a caller would write for a well-typed `AudioConfig`. */
  function ToObject(c: AudioConfig): (o: JsObject)
    ensures "referenceAudio" in o <==> c.referenceAudio.Some?
    ensures forall k | k in NumericProperties :: k in o && o[k].Num?
  {
    var base := map[
      "diffusionSteps" := Num(c.diffusionSteps),
      "chunkSize" := Num(c.chunkSize),
      "crossfade" := Num(c.crossfade),
      "extraContext" := Num(c.extraContext),
      "inputDevice" := Str(c.inputDevice),
      "outputDevice" := Str(c.outputDevice)];
    if c.referenceAudio.Some? then base["referenceAudio" := FileRef(c.referenceAudio.value)] else base
  }

  /** What one `FormData` entry holds. A number is kept as the number it renders. */
  datatype FormValue = NumberText(n: real) | Text(s: string) | Blob(file: File)

  datatype FormField = FormField(name: string, value: FormValue)

  function Names(fields: seq<FormField>): (names: seq<string>)
    ensures |names| == |fields|
    ensures forall i :: 0 <= i < |fields| ==> names[i] == fields[i].name
  {
    seq(|fields|, i requires 0 <= i < |fields| => fields[i].name)
  }

  /** Why a call rejects: a property read on `undefined`, a transport failure, or a non-2xx answer. */
  datatype ApiError = TypeError(property: string) | NetworkError | HttpError(message: string)

  /** The properties `start` calls `toString()` on. */
  const NumericProperties: seq<string> := ["diffusionSteps", "chunkSize", "crossfade", "extraContext"]

  /** The multipart field names `start` always sends, in order. */
  const ParameterNames: seq<string> :=
    ["diffusion_steps", "chunk_size", "crossfade", "extra_context", "input_device", "output_device"]

  const ReferenceAudioName: string := "reference_audio"

  /** `config[key].toString()`: throws a TypeError on `undefined`. */
  function ToText(config: JsObject, key: string): (r: Result<FormValue, ApiError>)
    ensures r.Failure? <==> key !in config
    ensures r.Failure? ==> r.error == TypeError(key)
  {
    match Lookup(config, key)
    case None => Failure(TypeError(key))
    case Some(Num(n)) => Success(NumberText(n))
    case Some(Str(s)) => Success(Text(s))
    case Some(FileRef(_)) => Success(Text("[object File]"))
  }

  /** What `formData.append(name, v)` stores: a file stays a blob, `undefined` becomes its name. */
  function Appended(v: Option<JsValue>): FormValue {
    match v
    case None => Text("undefined")
    case Some(Num(n)) => NumberText(n)
    case Some(Str(s)) => Text(s)
    case Some(FileRef(f)) => Blob(f)
  }

  /** The multipart payload `start` builds, or the error it throws while building it. */
  function StartForm(config: JsObject): (r: Result<seq<FormField>, ApiError>)
    ensures r.Success? <==> forall k | k in NumericProperties :: k in config
    ensures r.Failure? ==> r.error.TypeError? && r.error.property in NumericProperties && r.error.property !in config
    ensures r.Success? ==>
      Names(r.value) == ParameterNames + (if Truthy(Lookup(config, "referenceAudio")) then [ReferenceAudioName] else [])
  {
    var diffusionSteps :- ToText(config, "diffusionSteps");
    var chunkSize :- ToText(config, "chunkSize");
    var crossfade :- ToText(config, "crossfade");
    var extraContext :- ToText(config, "extraContext");
    var fields := [
      FormField("diffusion_steps", diffusionSteps),
      FormField("chunk_size", chunkSize),
      FormField("crossfade", crossfade),
      FormField("extra_context", extraContext),
      FormField("input_device", Appended(Lookup(config, "inputDevice"))),
      FormField("output_device", Appended(Lookup(config, "outputDevice")))];
    var referenceAudio := Lookup(config, "referenceAudio");
    Success(if Truthy(referenceAudio) then fields + [FormField(ReferenceAudioName, Appended(referenceAudio))] else fields)
  }

  /** How a receiver of the multipart payload reads an `AudioConfig` back. */
  function DecodeStartForm(fields: seq<FormField>): Option<AudioConfig> {
    if !(|fields| == 6 || |fields| == 7) || Names(fields[..6]) != ParameterNames then None
    else
      match (fields[0].value, fields[1].value, fields[2].value, fields[3].value, fields[4].value, fields[5].value)
      case (NumberText(ds), NumberText(cs), NumberText(cf), NumberText(ec), Text(input), Text(output)) =>
        if |fields| == 6 then
          Some(AudioConfig(ds, cs, cf, ec, input, output, None))
        else if fields[6].name == ReferenceAudioName && fields[6].value.Blob? then
          Some(AudioConfig(ds, cs, cf, ec, input, output, Some(fields[6].value.file)))
        else None
      case _ => None
  }

  /** The multipart payload of a well-typed config, field by field. */
  function Encoded(c: AudioConfig): seq<FormField> {
    var fields := [
      FormField("diffusion_steps", NumberText(c.diffusionSteps)),
      FormField("chunk_size", NumberText(c.chunkSize)),
      FormField("crossfade", NumberText(c.crossfade)),
      FormField("extra_context", NumberText(c.extraContext)),
      FormField("input_device", Text(c.inputDevice)),
      FormField("output_device", Text(c.outputDevice))];
    if c.referenceAudio.Some? then fields + [FormField(ReferenceAudioName, Blob(c.referenceAudio.value))] else fields
  }

  lemma StartFormOfObject(c: AudioConfig)
    ensures StartForm(ToObject(c)) == Success(Encoded(c))
  {
  }

  lemma DecodeEncoded(c: AudioConfig)
    ensures DecodeStartForm(Encoded(c)) == Some(c)
  {
    var fields := Encoded(c);
    assert Names(fields[..6]) == ParameterNames;
  }

  /** A well-typed config survives the multipart encoding unchanged. */
  lemma StartFormRoundTrip(c: AudioConfig)
    ensures StartForm(ToObject(c)).Success?
    ensures DecodeStartForm(StartForm(ToObject(c)).value) == Some(c)
  {
    StartFormOfObject(c);
    DecodeEncoded(c);
  }

  datatype Method = Get | Post

  datatype Body = NoBody | Multipart(fields: seq<FormField>) | Json(payload: JsObject)

  datatype Request = Request(verb: Method, path: string, contentType: Option<string>, body: Body)

  /** What `fetch` resolves to, or its rejection. */
  datatype Reply<T> = NetworkFailure | Response(ok: bool, statusText: string, payload: T)

  predicate Accepted<T>(reply: Reply<T>) {
    reply.Response? && reply.ok
  }

  /** A call: the request it puts on the wire, if any, and its settled result. */
  datatype Call<T> = Call(sent: Option<Request>, result: Result<T, ApiError>)

  /** The check every operation applies to its response. */
  function Settle<T>(operation: string, reply: Reply<T>): (r: Result<T, ApiError>)
    ensures r.Success? <==> Accepted(reply)
    ensures r.Success? ==> r.value == reply.payload
    ensures reply.NetworkFailure? ==> r == Failure(NetworkError)
    ensures reply.Response? && !reply.ok ==>
      r.Failure? && r.error.HttpError? &&
      StartsWith(r.error.message, "Failed to " + operation + ": ") &&
      r.error.message[|"Failed to " + operation + ": "|..] == reply.statusText
  {
    match reply
    case NetworkFailure => Failure(NetworkError)
    case Response(ok, statusText, payload) =>
      if ok then Success(payload) else Failure(HttpError("Failed to " + operation + ": " + statusText))
  }

  /** `audioAPI.start`. */
  function Start(config: JsObject, reply: Reply<()>): (r: Call<()>)
    ensures r.sent.None? <==> StartForm(config).Failure?
    ensures r.sent.None? ==> r.result == Failure(StartForm(config).error)
    ensures r.sent.Some? ==>
      r.sent.value == Request(Post, "/start", None, Multipart(StartForm(config).value)) &&
      (r.result.Success? <==> Accepted(reply))
    ensures r.result.Success? <==> StartForm(config).Success? && Accepted(reply)
    ensures StartForm(config).Success? && reply.NetworkFailure? ==> r.result == Failure(NetworkError)
    ensures StartForm(config).Success? && reply.Response? && !reply.ok ==>
      r.result == Failure(HttpError("Failed to start: " + reply.statusText))
  {
    assert "Failed to " + "start" + ": " == "Failed to start: ";
    match StartForm(config)
    case Failure(e) => Call(None, Failure(e))
    case Success(fields) => Call(Some(Request(Post, "/start", None, Multipart(fields))), Settle("start", reply))
  }

  /** `audioAPI.stop`. */
  function Stop(reply: Reply<()>): (r: Call<()>)
    ensures r.sent == Some(Request(Post, "/stop", None, NoBody))
    ensures r.result.Success? <==> Accepted(reply)
    ensures reply.NetworkFailure? ==> r.result == Failure(NetworkError)
    ensures reply.Response? && !reply.ok ==> r.result == Failure(HttpError("Failed to stop: " + reply.statusText))
  {
    assert "Failed to " + "stop" + ": " == "Failed to stop: ";
    Call(Some(Request(Post, "/stop", None, NoBody)), Settle("stop", reply))
  }

  /** `audioAPI.updateConfig`: the object goes out as a JSON body. */
  function UpdateConfig(config: JsObject, reply: Reply<()>): (r: Call<()>)
    ensures r.sent == Some(Request(Post, "/config", Some("application/json"), Json(config)))
    ensures r.result.Success? <==> Accepted(reply)
    ensures reply.NetworkFailure? ==> r.result == Failure(NetworkError)
    ensures reply.Response? && !reply.ok ==> r.result == Failure(HttpError("Failed to update config: " + reply.statusText))
  {
    assert "Failed to " + "update config" + ": " == "Failed to update config: ";
    Call(Some(Request(Post, "/config", Some("application/json"), Json(config))), Settle("update config", reply))
  }

  /** `audioAPI.detectDevices`: the parsed body is returned only on an ok response. */
  function DetectDevices(reply: Reply<DeviceLists>): (r: Call<DeviceLists>)
    ensures r.sent == Some(Request(Get, "/detect-devices", None, NoBody))
    ensures r.result.Success? <==> Accepted(reply)
    ensures r.result.Success? ==> r.result.value == reply.payload
    ensures reply.NetworkFailure? ==> r.result == Failure(NetworkError)
    ensures reply.Response? && !reply.ok ==> r.result == Failure(HttpError("Failed to detect devices: " + reply.statusText))
  {
    assert "Failed to " + "detect devices" + ": " == "Failed to detect devices: ";
    Call(Some(Request(Get, "/detect-devices", None, NoBody)), Settle("detect devices", reply))
  }
}

=== FILE: audio_preview.dfy ===
/**
 * The player card `AudioPreview` (src/components/AudioPreview.tsx): the
 * play/pause flag, the progress bar value and the `m:ss` time labels. The
 * HTML audio element itself is outside the model; whether `audioRef.current`
 * is set is a parameter.
 */
module AudioPreview {
  import opened Wrappers

  /** The component's state: `isPlaying`, `currentTime` and `duration` (seconds). */
  datatype Preview = Preview(isPlaying: bool, currentTime: real, duration: real)

  const Initial: Preview := Preview(false, 0.0, 0.0)

  /** `togglePlayback`: flips the flag when the audio element exists, otherwise does nothing. */
  function TogglePlayback(p: Preview, hasAudio: bool): (r: Preview)
    ensures hasAudio ==> r.isPlaying != p.isPlaying
    ensures !hasAudio ==> r == p
    ensures r.currentTime == p.currentTime && r.duration == p.duration
  {
    if !hasAudio then p else p.(isPlaying := !p.isPlaying)
  }

  /** Two presses of the play button bring the card back where it was. */
  lemma ToggleTwiceRestores(p: Preview, hasAudio: bool)
    ensures TogglePlayback(TogglePlayback(p, hasAudio), hasAudio) == p
  {
  }

  /** The `ended` listener: playback stops, the clock and length stay. */
  function OnEnded(p: Preview): (r: Preview)
    ensures !r.isPlaying
    ensures r.currentTime == p.currentTime && r.duration == p.duration
  {
    p.(isPlaying := false)
  }

  /** After the track ends, the next press starts playing again. */
  lemma PressAfterEndedPlays(p: Preview)
    ensures TogglePlayback(OnEnded(p), true).isPlaying
  {
  }

  /** The quotient of the clock by a positive duration: times the duration it gives the clock back, and it lies in [0, 1] while the clock is within the track. */
  lemma Quotient(currentTime: real, duration: real)
    requires duration > 0.0
    ensures (currentTime / duration) * 100.0 * duration == currentTime * 100.0
    ensures 0.0 <= currentTime <= duration ==> 0.0 <= currentTime / duration <= 1.0
  {
    var q := currentTime / duration;
    assert q * duration == currentTime;
    assert q * 100.0 * duration == (q * duration) * 100.0;
  }

  /** The progress bar value, in percent of the track. */
  function Progress(currentTime: real, duration: real): (r: real)
    ensures duration <= 0.0 ==> r == 0.0
    ensures duration > 0.0 ==> r * duration == currentTime * 100.0
    ensures duration > 0.0 && 0.0 <= currentTime <= duration ==> 0.0 <= r <= 100.0
  {
    if duration > 0.0 then
      Quotient(currentTime, duration);
      (currentTime / duration) * 100.0
    else 0.0
  }

  predicate IsDigit(c: char) {
    '0' <= c <= '9'
  }

  predicate AllDigits(s: string) {
    forall i :: 0 <= i < |s| ==> IsDigit(s[i])
  }

  function DigitValue(c: char): nat
    requires IsDigit(c)
  {
    c as int - '0' as int
  }

  function Digit(d: nat): (c: char)
    requires d < 10
    ensures IsDigit(c) && DigitValue(c) == d
  {
    ('0' as int + d) as char
  }

  /** The number a string of decimal digits denotes. */
  function Value(s: string): nat
    requires AllDigits(s)
    decreases |s|
  {
    if |s| == 0 then 0 else Value(s[..|s| - 1]) * 10 + DigitValue(s[|s| - 1])
  }

  /** Appending a digit multiplies the value by ten and adds the digit. */
  lemma ValueSnoc(s: string, c: char)
    requires AllDigits(s) && IsDigit(c)
    ensures AllDigits(s + [c]) && Value(s + [c]) == Value(s) * 10 + DigitValue(c)
  {
    var t := s + [c];
    assert t[..|t| - 1] == s;
  }

  /** `n.toString()` for a whole number. */
  function Decimal(n: nat): (s: string)
    ensures |s| >= 1 && AllDigits(s)
    ensures n < 10 <==> |s| == 1
    ensures n < 100 ==> |s| <= 2
    decreases n
  {
    if n < 10 then [Digit(n)] else Decimal(n / 10) + [Digit(n % 10)]
  }

  /** `toString` reads back as the number it was given. */
  lemma {:induction false} DecimalValue(n: nat)
    ensures Value(Decimal(n)) == n
    decreases n
  {
    if n < 10 {
      ValueSnoc([], Digit(n));
      assert [] + [Digit(n)] == Decimal(n);
    } else {
      DecimalValue(n / 10);
      ValueSnoc(Decimal(n / 10), Digit(n % 10));
    }
  }

  /** `toString` never writes a leading zero: only zero itself starts with '0'. */
  lemma {:induction false} DecimalNoLeadingZero(n: nat)
    ensures Decimal(n)[0] == '0' ==> n == 0
    decreases n
  {
    if n >= 10 {
      DecimalNoLeadingZero(n / 10);
    }
  }

  /** `fill` repeated `n` times. */
  function Fill(n: nat, fill: char): (r: string)
    ensures |r| == n
    ensures forall i :: 0 <= i < n ==> r[i] == fill
  {
    seq(n, _ => fill)
  }

  /** `s.padStart(width, fill)` for a one-character `fill`. */
  function PadStart(s: string, width: nat, fill: char): (r: string)
    ensures |r| == if |s| < width then width else |s|
    ensures r[|r| - |s|..] == s
    ensures forall i :: 0 <= i < |r| - |s| ==> r[i] == fill
  {
    if |s| >= width then s else Fill(width - |s|, fill) + s
  }

  /** A two-digit pad of a number below 100 still denotes that number. */
  lemma PadTwoValue(n: nat)
    requires n < 100
    ensures var p := PadStart(Decimal(n), 2, '0'); |p| == 2 && AllDigits(p) && Value(p) == n
  {
    var d := Decimal(n);
    DecimalValue(n);
    if n < 10 {
      var zero := Fill(1, '0');
      assert zero == [] + ['0'];
      ValueSnoc([], '0');
      assert PadStart(d, 2, '0') == zero + [d[0]];
      ValueSnoc(zero, d[0]);
    }
  }

  /** The seconds field: `seconds.toString().padStart(2, '0')`. */
  function TwoDigits(n: nat): (r: string)
    requires n < 100
    ensures |r| == 2 && AllDigits(r) && Value(r) == n
  {
    PadTwoValue(n);
    PadStart(Decimal(n), 2, '0')
  }

  /** Minutes and seconds joined by a colon; each piece sits where the label's shape says. */
  function Label(minutes: string, seconds: string): (r: string)
    requires |seconds| == 2
    ensures |r| == |minutes| + 3 && r[..|r| - 3] == minutes && r[|r| - 3] == ':' && r[|r| - 2..] == seconds
  {
    var r := minutes + ":" + seconds;
    assert r[..|minutes|] == minutes;
    assert r[|minutes| + 1..] == seconds;
    r
  }

  /** `formatTime` over whole non-negative seconds: minutes, a colon, two-digit seconds. */
  function FormatTime(t: nat): (r: string)
    ensures |r| >= 4 && r[|r| - 3] == ':'
    ensures AllDigits(r[..|r| - 3]) && AllDigits(r[|r| - 2..])
  {
    Label(Decimal(t / 60), TwoDigits(t % 60))
  }

  /** The minutes field is written without padding: a label starts with '0' only below one minute. */
  lemma FormatTimeNoLeadingZero(t: nat)
    ensures FormatTime(t)[0] == '0' ==> t < 60
  {
    var minutes := Decimal(t / 60);
    var r := FormatTime(t);
    assert r[..|r| - 3] == minutes;
    assert r[0] == minutes[0];
    DecimalNoLeadingZero(t / 60);
  }

  /** Reads an `m:ss` label back into seconds. */
  function ParseTime(s: string): Option<nat> {
    if |s| < 4 || s[|s| - 3] != ':' then None
    else
      var minutes := s[..|s| - 3];
      var seconds := s[|s| - 2..];
      if AllDigits(minutes) && AllDigits(seconds) && Value(seconds) < 60 then
        Some(Value(minutes) * 60 + Value(seconds))
      else None
  }

  /** `s` has the shape `m:ss`, `m` is the whole minutes of `t` and `ss` the remaining seconds. */
  predicate ShowsTime(s: string, t: nat) {
    && |s| >= 4 && s[|s| - 3] == ':'
    && AllDigits(s[..|s| - 3]) && AllDigits(s[|s| - 2..])
    && Value(s[..|s| - 3]) == t / 60 && Value(s[|s| - 2..]) == t % 60
  }

  /** The label's minutes are the whole minutes of `t` and its seconds the remainder below 60. */
  lemma FormatTimeFields(t: nat)
    ensures ShowsTime(FormatTime(t), t)
  {
    var minutes := Decimal(t / 60);
    var seconds := TwoDigits(t % 60);
    var r := Label(minutes, seconds);
    assert r == FormatTime(t);
    assert r[..|r| - 3] == minutes && r[|r| - 2..] == seconds;
    DecimalValue(t / 60);
    assert |r| >= 4 && r[|r| - 3] == ':';
    assert AllDigits(r[..|r| - 3]) && AllDigits(r[|r| - 2..]);
    assert Value(r[..|r| - 3]) == t / 60;
    assert Value(r[|r| - 2..]) == t % 60;
    assert ShowsTime(r, t);
  }

  /** A well-formed label whose fields are the minutes and seconds of `t` reads back as `t`. */
  lemma ParseLabel(s: string, t: nat)
    requires ShowsTime(s, t)
    ensures ParseTime(s) == Some(t)
  {
    assert (t / 60) * 60 + t % 60 == t;
  }

  /** Every label `formatTime` produces reads back as the time it showed. */
  lemma FormatTimeRoundTrip(t: nat)
    ensures ParseTime(FormatTime(t)) == Some(t)
  {
    FormatTimeFields(t);
    ParseLabel(FormatTime(t), t);
  }

  /** A zero time reads "0:00". */
  lemma FormatZero()
    ensures FormatTime(0) == "0:00"
  {
    var zero := Decimal(0);
    assert zero == "0";
    assert Fill(1, '0') == "0";
    assert PadStart(zero, 2, '0') == "00";
    assert TwoDigits(0) == "00";
    assert Label("0", "00") == "0:00";
  }

  /** On mount the card is paused, its bar is empty and both labels read "0:00". */
  lemma MountShowsZero()
    ensures !Initial.isPlaying && Progress(Initial.currentTime, Initial.duration) == 0.0
    ensures FormatTime(Initial.currentTime.Floor as nat) == "0:00" && FormatTime(Initial.duration.Floor as nat) == "0:00"
  {
    assert Initial.currentTime.Floor == 0 && Initial.duration.Floor == 0;
    FormatZero();
  }
}

=== FILE: audio_upload.dfy ===
/**
 * The drop zone `AudioUpload` (src/components/AudioUpload.tsx): which file, if
 * any, it hands to its `onFileSelect` callback. The drop zone library's own
 * accept filter is outside the model; `acceptedFiles` is what it passes on.
 */
module AudioUpload {
  import opened Wrappers
  import opened Browser

  const AudioMimePrefix: string := "audio/"

  predicate IsAudio(f: File) {
    StartsWith(f.mimeType, AudioMimePrefix)
  }

  /** Whether `onFileSelect` was called, and with what (`None` for `null`). */
  datatype Selection = NoCall | Select(file: Option<File>)

  /** What one drop leaves behind: the callback made and the drag highlight. */
  datatype DropOutcome = DropOutcome(selection: Selection, isDragActive: bool)

  /** The parent's `setSelectedFile` applied to what the component reported. */
  function Apply(current: Option<File>, selection: Selection): Option<File> {
    match selection
    case NoCall => current
    case Select(file) => file
  }

  /** `onDrop`: only the first accepted file is looked at, and only an audio MIME type is selected. */
  function OnDrop(acceptedFiles: seq<File>): (r: DropOutcome)
    ensures !r.isDragActive
    ensures r.selection != Select(None)
    ensures r.selection.Select? <==> |acceptedFiles| > 0 && IsAudio(acceptedFiles[0])
    ensures r.selection.Select? ==> r.selection.file == Some(acceptedFiles[0])
  {
    var selection :=
      if |acceptedFiles| > 0 && IsAudio(acceptedFiles[0]) then Select(Some(acceptedFiles[0])) else NoCall;
    DropOutcome(selection, false)
  }

  /** `handleRemoveFile`: whatever was selected, the parent ends up with no file. */
  function HandleRemoveFile(): (r: Selection)
    ensures forall current: Option<File> :: Apply(current, r) == None
  {
    Select(None)
  }

  /** The file a page holds is either absent or audio. */
  predicate AudioOrNone(file: Option<File>) {
    file.None? || IsAudio(file.value)
  }

  /** Drops and removals can never leave a non-audio file selected. */
  lemma DropKeepsAudioOnly(current: Option<File>, acceptedFiles: seq<File>)
    requires AudioOrNone(current)
    ensures AudioOrNone(Apply(current, OnDrop(acceptedFiles).selection))
    ensures AudioOrNone(Apply(current, HandleRemoveFile()))
  {
  }

  /** Files after the first one never influence a drop. */
  lemma OnlyFirstFileCounts(first: File, rest: seq<File>, other: seq<File>)
    ensures OnDrop([first] + rest) == OnDrop([first] + other)
  {
  }
}

=== FILE: browser.dfy ===
/** The few browser values the model reads. */
module Browser {

  /** A `File` handed over by the drop zone: its name, MIME type and size in bytes. */
  datatype File = File(name: string, mimeType: string, size: nat)

  /** `s.startsWith(prefix)`. */
  predicate StartsWith(s: string, prefix: string) {
    |prefix| <= |s| && s[..|prefix|] == prefix
  }
}

=== FILE: index_debounce.dfy ===
/**
 * The debounced config push of the main page (src/pages/Index.tsx): an effect
 * that depends on the four parameters and the two device ids, runs only when
 * a device or a file is set, and posts the six values to `/config` 500 ms
 * later unless the effect re-runs first and clears the timer.
 *
 * `Run` replays that timer against a timestamped list of edits. `Reference`
 * states, edit by edit, which edits end in a push. `RunMatchesReference`
 * proves the two agree.
 */
module IndexDebounce {
  import opened Wrappers
  import opened IndexPage
  import Api

  /** The delay, in milliseconds, before a scheduled push is sent. */
  const QuietMs: nat := 500

  /** The effect's dependency list, which is also the object it pushes. */
  datatype Watched = Watched(
    diffusionSteps: real,
    chunkSize: real,
    crossfade: real,
    extraContext: real,
    inputDevice: string,
    outputDevice: string)

  function WatchedOf(f: Form): Watched {
    Watched(f.diffusionSteps, f.chunkSize, f.crossfade, f.extraContext, f.inputDevice, f.outputDevice)
  }

  /** The condition the effect tests before scheduling; it reads the file, which is not a dependency. */
  predicate Gate(f: Form) {
    f.inputDevice != "" || f.outputDevice != "" || f.selectedFile.Some?
  }

  /** The edit alters a dependency, so the effect's cleanup and body run again. */
  predicate Changes(f: Form, setting: Setting) {
    WatchedOf(Apply(f, setting)) != WatchedOf(f)
  }

  /** A form edit at a time in milliseconds. */
  datatype Edit = Edit(at: nat, setting: Setting)

  /** A push sent at time `at` carrying `config`. */
  datatype Push = Push(at: nat, config: Watched)

  /** A scheduled, not yet cleared push. */
  datatype Timer = Timer(due: nat, config: Watched)

  function Fire(pending: Option<Timer>): seq<Push> {
    if pending.Some? then [Push(pending.value.due, pending.value.config)] else []
  }

  /** The form after every edit in `edits`. */
  function After(f: Form, edits: seq<Edit>): Form
    decreases |edits|
  {
    if |edits| == 0 then f else After(Apply(f, edits[0].setting), edits[1..])
  }

  /**
   * The timer, replayed. An edit that alters a dependency clears the pending
   * timer (a timer already due by then has fired) and, if the gate holds,
   * schedules a new one; other edits leave the timer alone. A timer still
   * pending after the last edit fires.
   */
  function Run(f: Form, pending: Option<Timer>, edits: seq<Edit>): seq<Push>
    decreases |edits|
  {
    if |edits| == 0 then Fire(pending)
    else
      var e := edits[0];
      var next := Apply(f, e.setting);
      if !Changes(f, e.setting) then Run(next, pending, edits[1..])
      else
        var fired := if pending.Some? && pending.value.due <= e.at then Fire(pending) else [];
        var scheduled := if Gate(next) then Some(Timer(e.at + QuietMs, WatchedOf(next))) else None;
        fired + Run(next, scheduled, edits[1..])
  }

  /** The pushes of a page session; the form on mount fails the gate, so mounting schedules nothing. */
  function Pushes(edits: seq<Edit>): seq<Push> {
    Run(InitialForm, None, edits)
  }

  /** No edit in `edits` alters a dependency before `due`. */
  predicate QuietUntil(f: Form, edits: seq<Edit>, due: nat)
    decreases |edits|
  {
    |edits| == 0 ||
    if Changes(f, edits[0].setting) then due <= edits[0].at
    else QuietUntil(Apply(f, edits[0].setting), edits[1..], due)
  }

  /** Edit by edit: an edit is pushed when it alters a dependency, passes the gate, and nothing alters one within 500 ms. */
  function Reference(f: Form, edits: seq<Edit>): seq<Push>
    decreases |edits|
  {
    if |edits| == 0 then []
    else
      var e := edits[0];
      var next := Apply(f, e.setting);
      var own :=
        if Changes(f, e.setting) && Gate(next) && QuietUntil(next, edits[1..], e.at + QuietMs)
        then [Push(e.at + QuietMs, WatchedOf(next))] else [];
      own + Reference(next, edits[1..])
  }

  /** What `Run`, `Reference` and `QuietUntil` do with one edit that leaves the dependencies alone. */
  lemma QuietStep(f: Form, pending: Option<Timer>, edits: seq<Edit>)
    requires |edits| > 0 && !Changes(f, edits[0].setting)
    ensures var next := Apply(f, edits[0].setting);
      && Run(f, pending, edits) == Run(next, pending, edits[1..])
      && Reference(f, edits) == Reference(next, edits[1..])
      && (forall due: nat :: QuietUntil(f, edits, due) == QuietUntil(next, edits[1..], due))
  {
    assert Reference(f, edits) == [] + Reference(Apply(f, edits[0].setting), edits[1..]);
  }

  /** What `Run`, `Reference` and `QuietUntil` do with one edit that alters a dependency. */
  lemma ChangeStep(f: Form, pending: Option<Timer>, edits: seq<Edit>)
    requires |edits| > 0 && Changes(f, edits[0].setting)
    ensures var e := edits[0];
      var next := Apply(f, e.setting);
      var scheduled := if Gate(next) then Some(Timer(e.at + QuietMs, WatchedOf(next))) else None;
      && Run(f, pending, edits) ==
         (if pending.Some? && pending.value.due <= e.at then Fire(pending) else []) + Run(next, scheduled, edits[1..])
      && Reference(f, edits) ==
         (if scheduled.Some? && QuietUntil(next, edits[1..], e.at + QuietMs) then Fire(scheduled) else []) +
         Reference(next, edits[1..])
      && (forall due: nat :: QuietUntil(f, edits, due) == (due <= e.at))
  {
  }

  /** The replayed timer sends exactly the pushes the edit-by-edit rule names, after any earlier timer that survives. */
  lemma {:induction false} RunMatchesReference(f: Form, pending: Option<Timer>, edits: seq<Edit>)
    ensures Run(f, pending, edits) ==
      (if pending.Some? && QuietUntil(f, edits, pending.value.due) then Fire(pending) else []) + Reference(f, edits)
    decreases |edits|, 1
  {
    if |edits| > 0 {
      if Changes(f, edits[0].setting) {
        ChangeMatchesReference(f, pending, edits);
      } else {
        QuietMatchesReference(f, pending, edits);
      }
    }
  }

  /** `RunMatchesReference` when the first edit leaves the dependencies alone. */
  lemma {:induction false} QuietMatchesReference(f: Form, pending: Option<Timer>, edits: seq<Edit>)
    requires |edits| > 0 && !Changes(f, edits[0].setting)
    ensures Run(f, pending, edits) ==
      (if pending.Some? && QuietUntil(f, edits, pending.value.due) then Fire(pending) else []) + Reference(f, edits)
    decreases |edits|, 0
  {
    QuietStep(f, pending, edits);
    RunMatchesReference(Apply(f, edits[0].setting), pending, edits[1..]);
  }

  /** `RunMatchesReference` when the first edit alters a dependency. */
  lemma {:induction false} ChangeMatchesReference(f: Form, pending: Option<Timer>, edits: seq<Edit>)
    requires |edits| > 0 && Changes(f, edits[0].setting)
    ensures Run(f, pending, edits) ==
      (if pending.Some? && QuietUntil(f, edits, pending.value.due) then Fire(pending) else []) + Reference(f, edits)
    decreases |edits|, 0
  {
    var e := edits[0];
    var next := Apply(f, e.setting);
    var rest := edits[1..];
    ChangeStep(f, pending, edits);
    var scheduled := if Gate(next) then Some(Timer(e.at + QuietMs, WatchedOf(next))) else None;
    RunMatchesReference(next, scheduled, rest);
    var fired := if pending.Some? && pending.value.due <= e.at then Fire(pending) else [];
    var own := if scheduled.Some? && QuietUntil(next, rest, e.at + QuietMs) then Fire(scheduled) else [];
    assert Run(next, scheduled, rest) == own + Reference(next, rest);
    assert fired == if pending.Some? && QuietUntil(f, edits, pending.value.due) then Fire(pending) else [];
    assert Run(f, pending, edits) == fired + (own + Reference(next, rest));
    assert fired + (own + Reference(next, rest)) == fired + Reference(f, edits);
  }

  /** Edit `k` schedules a push that nothing clears. */
  predicate Yields(f: Form, edits: seq<Edit>, k: nat)
    requires k < |edits|
  {
    var before := After(f, edits[..k]);
    var after := Apply(before, edits[k].setting);
    Changes(before, edits[k].setting) && Gate(after) && QuietUntil(after, edits[k + 1..], edits[k].at + QuietMs)
  }

  /** The push edit `k` schedules: 500 ms after it, with the values it left. */
  function PushFor(f: Form, edits: seq<Edit>, k: nat): Push
    requires k < |edits|
  {
    Push(edits[k].at + QuietMs, WatchedOf(Apply(After(f, edits[..k]), edits[k].setting)))
  }

  lemma AfterPrefixShift(f: Form, edits: seq<Edit>, k: nat)
    requires 0 < k <= |edits|
    ensures After(f, edits[..k]) == After(Apply(f, edits[0].setting), edits[1..][..k - 1])
  {
    assert edits[..k][0] == edits[0];
    assert edits[..k][1..] == edits[1..][..k - 1];
  }

  /** The pushes are exactly those of the edits that yield one. */
  lemma {:induction false} ReferenceCharacterised(f: Form, edits: seq<Edit>)
    ensures forall k: nat :: k < |edits| && Yields(f, edits, k) ==> PushFor(f, edits, k) in Reference(f, edits)
    ensures forall p :: p in Reference(f, edits) ==>
      exists k: nat :: k < |edits| && Yields(f, edits, k) && p == PushFor(f, edits, k)
    decreases |edits|
  {
    if |edits| > 0 {
      var next := Apply(f, edits[0].setting);
      var rest := edits[1..];
      ReferenceCharacterised(next, rest);
      assert edits[..0] == [];
      forall k: nat | 0 < k < |edits|
        ensures Yields(f, edits, k) == Yields(next, rest, k - 1)
        ensures PushFor(f, edits, k) == PushFor(next, rest, k - 1)
      {
        AfterPrefixShift(f, edits, k);
        assert edits[k + 1..] == rest[k..];
        assert edits[k] == rest[k - 1];
      }
      forall p | p in Reference(f, edits)
        ensures exists k: nat :: k < |edits| && Yields(f, edits, k) && p == PushFor(f, edits, k)
      {
        if p !in Reference(next, rest) {
          assert Yields(f, edits, 0) && p == PushFor(f, edits, 0);
        } else {
          var k': nat :| k' < |rest| && Yields(next, rest, k') && p == PushFor(next, rest, k');
          assert Yields(f, edits, k' + 1) && p == PushFor(f, edits, k' + 1);
        }
      }
    }
  }

  /** A session's pushes are exactly those of its yielding edits. */
  lemma PushesCharacterised(edits: seq<Edit>)
    ensures forall k: nat :: k < |edits| && Yields(InitialForm, edits, k) ==> PushFor(InitialForm, edits, k) in Pushes(edits)
    ensures forall p :: p in Pushes(edits) ==>
      exists k: nat :: k < |edits| && Yields(InitialForm, edits, k) && p == PushFor(InitialForm, edits, k)
  {
    RunMatchesReference(InitialForm, None, edits);
    ReferenceCharacterised(InitialForm, edits);
  }

  /** Every edit alters a dependency and comes less than 500 ms after the one before. */
  predicate Burst(f: Form, edits: seq<Edit>)
    decreases |edits|
  {
    |edits| > 0 && Changes(f, edits[0].setting) &&
    (|edits| == 1 ||
     (edits[1].at < edits[0].at + QuietMs && Burst(Apply(f, edits[0].setting), edits[1..])))
  }

  lemma {:induction false} BurstReference(f: Form, edits: seq<Edit>)
    requires Burst(f, edits)
    ensures var last := After(f, edits);
      Reference(f, edits) == if Gate(last) then [Push(edits[|edits| - 1].at + QuietMs, WatchedOf(last))] else []
    decreases |edits|
  {
    var next := Apply(f, edits[0].setting);
    if |edits| > 1 {
      var rest := edits[1..];
      assert Changes(next, rest[0].setting);
      assert !QuietUntil(next, rest, edits[0].at + QuietMs);
      BurstReference(next, rest);
    }
  }

  /** A burst of edits yields at most one push: the last edit's values, 500 ms after it. */
  lemma BurstPushesAtMostOnce(f: Form, edits: seq<Edit>)
    requires Burst(f, edits)
    ensures var last := After(f, edits);
      Run(f, None, edits) == if Gate(last) then [Push(edits[|edits| - 1].at + QuietMs, WatchedOf(last))] else []
  {
    RunMatchesReference(f, None, edits);
    BurstReference(f, edits);
  }

  /** Selecting or removing files never schedules a push: the file is not a dependency. */
  lemma {:induction false} FileSelectionAloneNeverPushes(f: Form, edits: seq<Edit>)
    requires forall i :: 0 <= i < |edits| ==> edits[i].setting.SelectFile?
    ensures Run(f, None, edits) == []
    decreases |edits|
  {
    if |edits| > 0 {
      assert !Changes(f, edits[0].setting);
      FileSelectionAloneNeverPushes(Apply(f, edits[0].setting), edits[1..]);
    }
  }

  /** The object a push hands to `audioAPI.updateConfig`. */
  function PushObject(w: Watched): (o: Api.JsObject)
    ensures o.Keys == {"diffusionSteps", "chunkSize", "crossfade", "extraContext", "inputDevice", "outputDevice"}
    ensures o["diffusionSteps"] == Api.Num(w.diffusionSteps) && o["chunkSize"] == Api.Num(w.chunkSize)
    ensures o["crossfade"] == Api.Num(w.crossfade) && o["extraContext"] == Api.Num(w.extraContext)
    ensures o["inputDevice"] == Api.Str(w.inputDevice) && o["outputDevice"] == Api.Str(w.outputDevice)
  {
    map[
      "diffusionSteps" := Api.Num(w.diffusionSteps),
      "chunkSize" := Api.Num(w.chunkSize),
      "crossfade" := Api.Num(w.crossfade),
      "extraContext" := Api.Num(w.extraContext),
      "inputDevice" := Api.Str(w.inputDevice),
      "outputDevice" := Api.Str(w.outputDevice)]
  }

  /** Sending a push: a JSON `POST /config`; its failure is only logged. */
  function Send(p: Push, reply: Api.Reply<()>): Api.Call<()> {
    Api.UpdateConfig(PushObject(p.config), reply)
  }

  /** Every push goes out as a JSON post of the six values to `/config`, whatever the answer. */
  lemma SendPostsConfig(p: Push, reply: Api.Reply<()>)
    ensures Send(p, reply).sent.Some?
    ensures var request := Send(p, reply).sent.value;
      request.verb == Api.Post && request.path == "/config" && request.body.Json? &&
      request.body.payload == PushObject(p.config)
  {
  }
}

=== FILE: index_page.dfy ===
/**
 * The main configuration page (src/pages/Index.tsx): its form, device loading
 * with a fixed fallback, the loading flag around start and stop, and the start
 * button. The debounced config push of the same page is in IndexDebounce.
 *
 * Each handler is one atomic request/response step. `HandleStartStop` takes
 * whether the backend accepted the request; `HandleStartStopWired` obtains it
 * from the client of src/lib/api.ts.
 */
module IndexPage {
  import opened Wrappers
  import opened Browser
  import Api
  import AudioUpload

  /** The values the user edits. */
  datatype Form = Form(
    selectedFile: Option<File>,
    inputDevice: string,
    outputDevice: string,
    diffusionSteps: real,
    chunkSize: real,
    crossfade: real,
    extraContext: real)

  const InitialForm: Form := Form(None, "", "", 20.0, 0.5, 0.25, 0.2)

  datatype State = State(
    form: Form,
    isRunning: bool,
    isLoading: bool,
    inputDevices: seq<Api.Device>,
    outputDevices: seq<Api.Device>)

  const Initial: State := State(InitialForm, false, false, [], [])

  /** The devices offered when detection fails. */
  const FallbackInputDevices: seq<Api.Device> := [
    Api.Device("default", "Default Microphone"),
    Api.Device("mic1", "USB Microphone"),
    Api.Device("mic2", "Built-in Microphone")]

  const FallbackOutputDevices: seq<Api.Device> := [
    Api.Device("default", "Default Speakers"),
    Api.Device("speakers1", "Desktop Speakers"),
    Api.Device("headphones", "Bluetooth Headphones")]

  function Ids(devices: seq<Api.Device>): (ids: seq<string>)
    ensures |ids| == |devices|
    ensures forall i :: 0 <= i < |devices| ==> ids[i] == devices[i].id
  {
    seq(|devices|, i requires 0 <= i < |devices| => devices[i].id)
  }

  /** `loadDevices`: the detected lists, or the fallback lists; the selected devices are never touched. */
  function LoadDevices(s: State, reply: Api.Reply<Api.DeviceLists>): (r: State)
    ensures Api.Accepted(reply) ==>
      r.inputDevices == reply.payload.inputDevices && r.outputDevices == reply.payload.outputDevices
    ensures !Api.Accepted(reply) ==>
      Ids(r.inputDevices) == ["default", "mic1", "mic2"] &&
      Ids(r.outputDevices) == ["default", "speakers1", "headphones"]
    ensures r.form == s.form && r.isRunning == s.isRunning && r.isLoading == s.isLoading
  {
    match Api.DetectDevices(reply).result
    case Success(lists) => s.(inputDevices := lists.inputDevices, outputDevices := lists.outputDevices)
    case Failure(_) => s.(inputDevices := FallbackInputDevices, outputDevices := FallbackOutputDevices)
  }

  /** Whatever detection answers, the page is left with the same lists as after a second identical load. */
  lemma LoadDevicesIdempotent(s: State, reply: Api.Reply<Api.DeviceLists>)
    ensures LoadDevices(LoadDevices(s, reply), reply) == LoadDevices(s, reply)
  {
  }

  /** The start/stop button accepts clicks. */
  predicate ButtonEnabled(s: State) {
    s.form.selectedFile.Some? && s.form.inputDevice != "" && s.form.outputDevice != "" && !s.isLoading
  }

  /** The part of `handleStartStop` before its `await`: both branches raise `isLoading`. */
  function Click(s: State): (r: State)
    ensures r.isLoading && !ButtonEnabled(r)
    ensures r.isRunning == s.isRunning && r.form == s.form
  {
    s.(isLoading := true)
  }

  /** The `try`/`finally` continuation once the request has settled. */
  function Finish(s: State, wasRunning: bool, accepted: bool): State {
    var s' := if accepted then s.(isRunning := !wasRunning) else s;
    s'.(isLoading := false)
  }

  /** `handleStartStop` as one step, `accepted` being whether the request succeeded. */
  function HandleStartStop(s: State, accepted: bool): (r: State)
    ensures !r.isLoading
    ensures s.isRunning ==> r.isRunning == !accepted
    ensures !s.isRunning ==> r.isRunning == accepted
    ensures r.form == s.form && r.inputDevices == s.inputDevices && r.outputDevices == s.outputDevices
  {
    Finish(Click(s), s.isRunning, accepted)
  }

  /**
   * The object `handleStartStop` passes to `audioAPI.start`, as written: the
   * diffusion steps go under `sampleDuration`, the language is fixed to "en",
   * and crossfade and extra context are left out.
   */
  function StartArgsAsWritten(f: Form): (o: Api.JsObject)
    ensures o.Keys ==
      {"sampleDuration", "chunkSize", "inputDevice", "outputDevice", "language"} +
      (if f.selectedFile.Some? then {"referenceAudio"} else {})
    ensures o["sampleDuration"] == Api.Num(f.diffusionSteps) && o["language"] == Api.Str("en")
    ensures o["chunkSize"] == Api.Num(f.chunkSize)
    ensures o["inputDevice"] == Api.Str(f.inputDevice) && o["outputDevice"] == Api.Str(f.outputDevice)
    ensures f.selectedFile.Some? ==> o["referenceAudio"] == Api.FileRef(f.selectedFile.value)
  {
    var base := map[
      "sampleDuration" := Api.Num(f.diffusionSteps),
      "chunkSize" := Api.Num(f.chunkSize),
      "inputDevice" := Api.Str(f.inputDevice),
      "outputDevice" := Api.Str(f.outputDevice),
      "language" := Api.Str("en")];
    if f.selectedFile.Some? then base["referenceAudio" := Api.FileRef(f.selectedFile.value)] else base
  }

  /** As written, `audioAPI.start` throws on `diffusionSteps` before any request, whatever the backend would say. */
  lemma StartAlwaysFailsAsWritten(s: State, reply: Api.Reply<()>)
    requires !s.isRunning
    ensures Api.Start(StartArgsAsWritten(s.form), reply) == Api.Call(None, Failure(Api.TypeError("diffusionSteps")))
    ensures var r := HandleStartStop(s, Api.Start(StartArgsAsWritten(s.form), reply).result.Success?);
      !r.isRunning && !r.isLoading
  {
  }

  /** The typed config this page holds, with the names the client reads. */
  function StartConfig(f: Form): Api.AudioConfig {
    Api.AudioConfig(f.diffusionSteps, f.chunkSize, f.crossfade, f.extraContext, f.inputDevice, f.outputDevice, f.selectedFile)
  }

  /** The start object with the client's property names, as the page's own config push spells them. */
  function StartArgs(f: Form): (o: Api.JsObject)
    ensures Api.StartForm(o).Success?
    ensures Api.DecodeStartForm(Api.StartForm(o).value) == Some(StartConfig(f))
  {
    Api.StartFormRoundTrip(StartConfig(f));
    Api.ToObject(StartConfig(f))
  }

  /** `handleStartStop` with the backend's answer run through the client. */
  function HandleStartStopWired(s: State, reply: Api.Reply<()>): State {
    var accepted :=
      if s.isRunning then Api.Stop(reply).result.Success?
      else Api.Start(StartArgs(s.form), reply).result.Success?;
    HandleStartStop(s, accepted)
  }

  /** With the corrected start object, the page runs exactly when the backend accepts, and every form value reaches it. */
  lemma WiredStartRunsIffAccepted(s: State, reply: Api.Reply<()>)
    requires !s.isRunning
    ensures HandleStartStopWired(s, reply).isRunning <==> Api.Accepted(reply)
    ensures var call := Api.Start(StartArgs(s.form), reply);
      call.sent.Some? && call.sent.value.verb == Api.Post && call.sent.value.path == "/start" &&
      call.sent.value.body.Multipart? &&
      Api.DecodeStartForm(call.sent.value.body.fields) == Some(StartConfig(s.form))
  {
  }

  /** With a running session, a stop the backend accepts ends it and a refused one keeps it. */
  lemma WiredStopEndsIffAccepted(s: State, reply: Api.Reply<()>)
    requires s.isRunning
    ensures HandleStartStopWired(s, reply).isRunning <==> !Api.Accepted(reply)
    ensures !HandleStartStopWired(s, reply).isLoading
  {
  }

  /** An edit made through one of the device selectors or parameter sliders. */
  datatype Parameter =
    | DiffusionSteps(steps: real)
    | ChunkSize(size: real)
    | Crossfade(seconds: real)
    | ExtraContext(seconds: real)
    | InputDevice(id: string)
    | OutputDevice(id: string)

  /** Any change to the form: a parameter, or the selected file (set by the drop zone, cleared by the preview). */
  datatype Setting = Set(parameter: Parameter) | SelectFile(file: Option<File>)

  function Apply(f: Form, setting: Setting): Form {
    match setting
    case Set(DiffusionSteps(v)) => f.(diffusionSteps := v)
    case Set(ChunkSize(v)) => f.(chunkSize := v)
    case Set(Crossfade(v)) => f.(crossfade := v)
    case Set(ExtraContext(v)) => f.(extraContext := v)
    case Set(InputDevice(id)) => f.(inputDevice := id)
    case Set(OutputDevice(id)) => f.(outputDevice := id)
    case SelectFile(file) => f.(selectedFile := file)
  }

  /**
   * What a user can do after mount. Nothing on this page is disabled while
   * running; the drop zone is shown only while no file is selected, the
   * preview with its remove button only while one is.
   */
  datatype Action = Press(accepted: bool) | Change(parameter: Parameter) | Drop(files: seq<File>) | RemoveFile

  function Perform(s: State, a: Action): State {
    match a
    case Press(accepted) => if ButtonEnabled(s) then HandleStartStop(s, accepted) else s
    case Change(parameter) => s.(form := Apply(s.form, Set(parameter)))
    case Drop(files) =>
      if s.form.selectedFile.Some? then s
      else
        var selected := AudioUpload.Apply(s.form.selectedFile, AudioUpload.OnDrop(files).selection);
        s.(form := Apply(s.form, SelectFile(selected)))
    case RemoveFile =>
      if s.form.selectedFile.None? then s else s.(form := Apply(s.form, SelectFile(None)))
  }

  function Replay(s: State, actions: seq<Action>): State
    decreases |actions|
  {
    if |actions| == 0 then s else Replay(Perform(s, actions[0]), actions[1..])
  }

  /** A press does something only when a file and both devices are chosen and no request is pending. */
  lemma PressNeedsReadyButton(s: State, accepted: bool)
    ensures !(s.form.selectedFile.Some? && s.form.inputDevice != "" && s.form.outputDevice != "" && !s.isLoading) ==>
      Perform(s, Press(accepted)) == s
    ensures s.form.selectedFile.Some? && s.form.inputDevice != "" && s.form.outputDevice != "" && !s.isLoading ==>
      Perform(s, Press(accepted)).isRunning == (s.isRunning != accepted)
  {
  }

  /** Between user actions the page is never left loading. */
  lemma {:induction false} ReplayNeverLeavesLoading(s: State, actions: seq<Action>)
    requires !s.isLoading
    ensures !Replay(s, actions).isLoading
    decreases |actions|
  {
    if |actions| > 0 {
      ReplayNeverLeavesLoading(Perform(s, actions[0]), actions[1..]);
    }
  }

  /** Removing the file of a running session disables the button, so the session cannot be stopped from here. */
  lemma RemovedFileBlocksStop(s: State, accepted: bool)
    requires s.isRunning
    ensures var r := Perform(s, RemoveFile); r.isRunning && Perform(r, Press(accepted)) == r
  {
  }

  /** The page never holds a file whose MIME type is not audio. */
  lemma {:induction false} ReplayKeepsAudioFile(s: State, actions: seq<Action>)
    requires AudioUpload.AudioOrNone(s.form.selectedFile)
    ensures AudioUpload.AudioOrNone(Replay(s, actions).form.selectedFile)
    decreases |actions|
  {
    if |actions| > 0 {
      if actions[0].Drop? {
        AudioUpload.DropKeepsAudioOnly(s.form.selectedFile, actions[0].files);
      }
      ReplayKeepsAudioFile(Perform(s, actions[0]), actions[1..]);
    }
  }

  /** From mount, whatever the user does, the page is never left loading and never holds a non-audio file. */
  lemma MountInvariants(actions: seq<Action>)
    ensures !ButtonEnabled(Initial)
    ensures var r := Replay(Initial, actions); !r.isLoading && AudioUpload.AudioOrNone(r.form.selectedFile)
  {
    ReplayNeverLeavesLoading(Initial, actions);
    ReplayKeepsAudioFile(Initial, actions);
  }
}

=== FILE: wrappers.dfy ===
/** Option and Result, the two failure-carrying shapes the model needs. */
module Wrappers {

  /** A value that may be missing (`undefined` or `null` in the source). */
  datatype Option<+T> = None | Some(value: T)

  /** The outcome of an operation that either returns or throws. */
  datatype Result<+R, +E> = Success(value: R) | Failure(error: E) {

    predicate IsFailure() {
      Failure?
    }

    function PropagateFailure<U>(): Result<U, E>
      requires Failure?
    {
      Failure(error)
    }

    function Extract(): R
      requires Success?
    {
      value
    }
  }
}

=== FILE: yellow_audio.dfy ===
/**
 * The "Audio Processing Studio" page (src/pages/YellowAudio.tsx): its form
 * state, the warm-up lifecycle around start and stop, device loading, and what
 * the start button shows and allows.
 *
 * Each handler is one atomic request/response step; whether the backend
 * accepted the request is a parameter. `StartArgs` and the lemma after it wire
 * the page to the client of src/lib/api.ts as written.
 */
module YellowAudio {
  import opened Wrappers
  import opened Browser
  import Api
  import AudioUpload

  /** The language codes the language select offers. */
  const Languages: seq<string> := ["en", "fr", "es", "ru", "zh"]

  datatype State = State(
    selectedFile: Option<File>,
    inputDevices: seq<Api.Device>,
    outputDevices: seq<Api.Device>,
    selectedInputDevice: string,
    selectedOutputDevice: string,
    sampleDuration: real,
    chunkSize: real,
    selectedLanguage: string,
    isWarmingUp: bool,
    isRunning: bool,
    showWarmupDialog: bool)

  /** The state on mount. */
  const Initial: State := State(None, [], [], "", "", 2.75, 0.5, "en", false, false, false)

  /** `isConfigDisabled`: the upload, device and parameter panels ignore input. */
  predicate ConfigDisabled(s: State) {
    s.isWarmingUp || s.isRunning
  }

  /** The start/stop button accepts clicks. */
  predicate ButtonEnabled(s: State) {
    s.selectedFile.Some? && s.selectedInputDevice != "" && s.selectedOutputDevice != "" && !s.isWarmingUp
  }

  datatype Label = Starting | StopProcessing | StartProcessing

  /** The button caption: warming up wins over running, running over idle. */
  function ButtonLabel(s: State): Label {
    if s.isWarmingUp then Starting else if s.isRunning then StopProcessing else StartProcessing
  }

  function LabelText(l: Label): string {
    match l
    case Starting => "Starting..."
    case StopProcessing => "Stop Processing"
    case StartProcessing => "Start Processing"
  }

  /** `a` and `b` agree on everything except the three lifecycle flags. */
  predicate SameConfiguration(a: State, b: State) {
    a == b.(isWarmingUp := a.isWarmingUp, isRunning := a.isRunning, showWarmupDialog := a.showWarmupDialog)
  }

  /** `loadDevices`: replace both lists and select the first entry of each non-empty one. */
  function LoadDevices(s: State, reply: Api.Reply<Api.DeviceLists>): (r: State)
    ensures !Api.Accepted(reply) ==> r == s
    ensures Api.Accepted(reply) ==>
      r.inputDevices == reply.payload.inputDevices && r.outputDevices == reply.payload.outputDevices
    ensures Api.Accepted(reply) ==>
      r.selectedInputDevice ==
        if |reply.payload.inputDevices| > 0 then reply.payload.inputDevices[0].id else s.selectedInputDevice
    ensures Api.Accepted(reply) ==>
      r.selectedOutputDevice ==
        if |reply.payload.outputDevices| > 0 then reply.payload.outputDevices[0].id else s.selectedOutputDevice
    ensures r == s.(inputDevices := r.inputDevices, outputDevices := r.outputDevices,
                    selectedInputDevice := r.selectedInputDevice, selectedOutputDevice := r.selectedOutputDevice)
  {
    match Api.DetectDevices(reply).result
    case Failure(_) => s
    case Success(lists) =>
      var withLists := s.(inputDevices := lists.inputDevices, outputDevices := lists.outputDevices);
      var withInput :=
        if |lists.inputDevices| > 0 then withLists.(selectedInputDevice := lists.inputDevices[0].id) else withLists;
      if |lists.outputDevices| > 0 then withInput.(selectedOutputDevice := lists.outputDevices[0].id) else withInput
  }

  /** After a successful load, a non-empty list's selection names one of its devices. */
  lemma LoadedSelectionIsListed(s: State, reply: Api.Reply<Api.DeviceLists>)
    requires Api.Accepted(reply)
    ensures var r := LoadDevices(s, reply);
      (|r.inputDevices| > 0 ==> exists d :: d in r.inputDevices && d.id == r.selectedInputDevice) &&
      (|r.outputDevices| > 0 ==> exists d :: d in r.outputDevices && d.id == r.selectedOutputDevice)
  {
    var r := LoadDevices(s, reply);
    if |r.inputDevices| > 0 {
      assert r.inputDevices[0] in r.inputDevices;
    }
    if |r.outputDevices| > 0 {
      assert r.outputDevices[0] in r.outputDevices;
    }
  }

  /** Loading the same answer twice is the same as loading it once. */
  lemma LoadDevicesIdempotent(s: State, reply: Api.Reply<Api.DeviceLists>)
    ensures LoadDevices(LoadDevices(s, reply), reply) == LoadDevices(s, reply)
  {
  }

  /** The part of `handleStartStop` before its `await`: a start opens the warm-up dialog. */
  function Click(s: State): (r: State)
    ensures s.isRunning ==> r == s
    ensures !s.isRunning ==> r.isWarmingUp && r.showWarmupDialog && !r.isRunning
    ensures SameConfiguration(r, s)
  {
    if s.isRunning then s else s.(showWarmupDialog := true, isWarmingUp := true)
  }

  /** The start continuation once `audioAPI.start` has settled. */
  function StartSettled(s: State, accepted: bool): State {
    if accepted then s.(isWarmingUp := false, isRunning := true, showWarmupDialog := false)
    else s.(isWarmingUp := false, showWarmupDialog := false)
  }

  /** The stop continuation once `audioAPI.stop` has settled. */
  function StopSettled(s: State, accepted: bool): State {
    if accepted then s.(isRunning := false) else s
  }

  /** `handleStartStop` as one step, `accepted` being whether the request succeeded. */
  function HandleStartStop(s: State, accepted: bool): (r: State)
    ensures s.isRunning ==>
      r.isRunning == !accepted && r.isWarmingUp == s.isWarmingUp && r.showWarmupDialog == s.showWarmupDialog
    ensures !s.isRunning ==> r.isRunning == accepted && !r.isWarmingUp && !r.showWarmupDialog
    ensures SameConfiguration(r, s)
  {
    if s.isRunning then StopSettled(s, accepted) else StartSettled(Click(s), accepted)
  }

  /** The caption across a start: "Starting..." while pending, then "Stop" or "Start" by outcome. */
  lemma LabelAcrossStartAndStop(s: State)
    requires !s.isWarmingUp
    ensures !s.isRunning ==> ButtonLabel(Click(s)) == Starting && !ButtonEnabled(Click(s))
    ensures !s.isRunning ==> ButtonLabel(HandleStartStop(s, true)) == StopProcessing
    ensures ButtonLabel(HandleStartStop(s, false)) == ButtonLabel(s)
    ensures s.isRunning ==> ButtonLabel(HandleStartStop(s, true)) == StartProcessing
  {
  }

  /** The object `handleStartStop` passes to `audioAPI.start` (`referenceAudio` is `undefined` without a file). */
  function StartArgs(s: State): (o: Api.JsObject)
    ensures o.Keys ==
      {"sampleDuration", "chunkSize", "inputDevice", "outputDevice", "language"} +
      (if s.selectedFile.Some? then {"referenceAudio"} else {})
    ensures o["sampleDuration"] == Api.Num(s.sampleDuration) && o["chunkSize"] == Api.Num(s.chunkSize)
    ensures o["language"] == Api.Str(s.selectedLanguage)
    ensures o["inputDevice"] == Api.Str(s.selectedInputDevice) && o["outputDevice"] == Api.Str(s.selectedOutputDevice)
    ensures s.selectedFile.Some? ==> o["referenceAudio"] == Api.FileRef(s.selectedFile.value)
  {
    var base := map[
      "sampleDuration" := Api.Num(s.sampleDuration),
      "chunkSize" := Api.Num(s.chunkSize),
      "inputDevice" := Api.Str(s.selectedInputDevice),
      "outputDevice" := Api.Str(s.selectedOutputDevice),
      "language" := Api.Str(s.selectedLanguage)];
    if s.selectedFile.Some? then base["referenceAudio" := Api.FileRef(s.selectedFile.value)] else base
  }

  /** As written, the start call throws before sending anything, so the page never reaches running. */
  lemma StartNeverRunsAsWritten(s: State, reply: Api.Reply<()>)
    requires !s.isRunning
    ensures Api.Start(StartArgs(s), reply) == Api.Call(None, Failure(Api.TypeError("diffusionSteps")))
    ensures !HandleStartStop(s, Api.Start(StartArgs(s), reply).result.Success?).isRunning
  {
  }

  /** An edit made through one of the panel controls. */
  datatype Setting =
    | SampleDuration(seconds: real)
    | ChunkSize(size: real)
    | Language(code: string)
    | InputDevice(id: string)
    | OutputDevice(id: string)

  function Apply(s: State, setting: Setting): State {
    match setting
    case SampleDuration(v) => s.(sampleDuration := v)
    case ChunkSize(v) => s.(chunkSize := v)
    case Language(code) => s.(selectedLanguage := code)
    case InputDevice(id) => s.(selectedInputDevice := id)
    case OutputDevice(id) => s.(selectedOutputDevice := id)
  }

  /**
   * Which controls honour `isConfigDisabled`. As written, the device
   * selectors and the sliders are handed a `disabled` prop their components
   * do not declare, so only the language select and the drop zone are
   * disabled; the dimmed cards block pointer input but not the keyboard.
   * `AllPanels` is the evident intent: the device selectors, the sliders and
   * the language select are disabled (the drop zone as before; the preview's
   * remove button carries no flag in either variant).
   */
  datatype Locking = AsWritten | AllPanels

  /** The control behind `setting` ignores input on a page in state `s`. */
  predicate Locked(locking: Locking, s: State, setting: Setting) {
    ConfigDisabled(s) && (locking == AllPanels || setting.Language?)
  }

  /**
   * What a user can do after mount. The preview's remove button carries no
   * `disabled` flag, so removal is always possible; the drop zone exists only
   * while no file is selected. The language select reports only the codes it
   * lists.
   */
  datatype Action = Press(accepted: bool) | Change(setting: Setting) | Drop(files: seq<File>) | RemoveFile

  function Perform(locking: Locking, s: State, a: Action): State {
    match a
    case Press(accepted) => if ButtonEnabled(s) then HandleStartStop(s, accepted) else s
    case Change(setting) =>
      if Locked(locking, s, setting) || (setting.Language? && setting.code !in Languages) then s
      else Apply(s, setting)
    case Drop(files) =>
      if ConfigDisabled(s) || s.selectedFile.Some? then s
      else s.(selectedFile := AudioUpload.Apply(s.selectedFile, AudioUpload.OnDrop(files).selection))
    case RemoveFile => s.(selectedFile := None)
  }

  function Replay(locking: Locking, s: State, actions: seq<Action>): State
    decreases |actions|
  {
    if |actions| == 0 then s else Replay(locking, Perform(locking, s, actions[0]), actions[1..])
  }

  /** A press does something only when a file and both devices are chosen and no warm-up is in progress. */
  lemma PressNeedsReadyButton(locking: Locking, s: State, accepted: bool)
    ensures !(s.selectedFile.Some? && s.selectedInputDevice != "" && s.selectedOutputDevice != "" && !s.isWarmingUp) ==>
      Perform(locking, s, Press(accepted)) == s
    ensures s.selectedFile.Some? && s.selectedInputDevice != "" && s.selectedOutputDevice != "" && !s.isWarmingUp ==>
      Perform(locking, s, Press(accepted)).isRunning == (s.isRunning != accepted)
  {
  }

  /**
   * As written, warming up or running locks only the language and the drop
   * zone: device, sample-duration and chunk-size edits always take effect.
   */
  lemma OnlyLanguageLockedWhenBusy(s: State, setting: Setting, files: seq<File>)
    ensures ConfigDisabled(s) ==> Perform(AsWritten, s, Drop(files)) == s
    ensures ConfigDisabled(s) && setting.Language? ==> Perform(AsWritten, s, Change(setting)) == s
    ensures !setting.Language? ==> Perform(AsWritten, s, Change(setting)) == Apply(s, setting)
    ensures !ConfigDisabled(s) && setting.Language? && setting.code in Languages ==>
      Perform(AsWritten, s, Change(setting)) == Apply(s, setting)
    ensures !ConfigDisabled(s) && s.selectedFile.None? ==>
      Perform(AsWritten, s, Drop(files)).selectedFile == AudioUpload.Apply(None, AudioUpload.OnDrop(files).selection)
  {
  }

  /** With every panel control honouring the flag, a setting is locked exactly while warming up or running. */
  lemma AllPanelsLockedExactlyWhenBusy(s: State, setting: Setting)
    ensures Locked(AllPanels, s, setting) <==> ConfigDisabled(s)
    ensures ConfigDisabled(s) ==> Perform(AllPanels, s, Change(setting)) == s
    ensures !ConfigDisabled(s) && (setting.Language? ==> setting.code in Languages) ==>
      Perform(AllPanels, s, Change(setting)) == Apply(s, setting)
  {
  }

  /** As written, a running session's chunk size can be edited, so the page no longer shows the parameters the session started with. */
  lemma ParametersDriftWhileRunning(s: State, size: real)
    requires s.isRunning && size != s.chunkSize
    ensures var r := Perform(AsWritten, s, Change(ChunkSize(size)));
      r.isRunning && ParametersOf(r) != ParametersOf(s)
  {
  }

  /** No warm-up is in progress and its dialog is closed. */
  predicate Settled(s: State) {
    !s.isWarmingUp && !s.showWarmupDialog
  }

  /** The values a session runs with: devices, sample duration, chunk size and language. */
  datatype Parameters = Parameters(input: string, output: string, sampleDuration: real, chunkSize: real, language: string)

  function ParametersOf(s: State): Parameters {
    Parameters(s.selectedInputDevice, s.selectedOutputDevice, s.sampleDuration, s.chunkSize, s.selectedLanguage)
  }

  /** Between user actions the page is never left warming up or with the dialog open. */
  lemma {:induction false} ReplayStaysSettled(locking: Locking, s: State, actions: seq<Action>)
    requires Settled(s)
    ensures Settled(Replay(locking, s, actions))
    decreases |actions|
  {
    if |actions| > 0 {
      ReplayStaysSettled(locking, Perform(locking, s, actions[0]), actions[1..]);
    }
  }

  /** As written, until a stop succeeds, a running session keeps running with the language it started with. */
  lemma {:induction false} LanguageFrozenWhileRunning(s: State, actions: seq<Action>)
    requires s.isRunning && Settled(s)
    requires forall i :: 0 <= i < |actions| ==> actions[i] != Press(true)
    ensures Replay(AsWritten, s, actions).isRunning
    ensures Replay(AsWritten, s, actions).selectedLanguage == s.selectedLanguage
    decreases |actions|
  {
    if |actions| > 0 {
      var next := Perform(AsWritten, s, actions[0]);
      assert next.isRunning && Settled(next) && next.selectedLanguage == s.selectedLanguage;
      LanguageFrozenWhileRunning(next, actions[1..]);
    }
  }

  /** With every panel control locked, a running session keeps all the parameters it started with. */
  lemma {:induction false} ParametersFrozenWhileRunning(s: State, actions: seq<Action>)
    requires s.isRunning && Settled(s)
    requires forall i :: 0 <= i < |actions| ==> actions[i] != Press(true)
    ensures Replay(AllPanels, s, actions).isRunning
    ensures ParametersOf(Replay(AllPanels, s, actions)) == ParametersOf(s)
    decreases |actions|
  {
    if |actions| > 0 {
      var next := Perform(AllPanels, s, actions[0]);
      assert next.isRunning && Settled(next) && ParametersOf(next) == ParametersOf(s);
      ParametersFrozenWhileRunning(next, actions[1..]);
    }
  }

  /** The page never holds a file whose MIME type is not audio. */
  lemma {:induction false} ReplayKeepsAudioFile(locking: Locking, s: State, actions: seq<Action>)
    requires AudioUpload.AudioOrNone(s.selectedFile)
    ensures AudioUpload.AudioOrNone(Replay(locking, s, actions).selectedFile)
    decreases |actions|
  {
    if |actions| > 0 {
      if actions[0].Drop? {
        AudioUpload.DropKeepsAudioOnly(s.selectedFile, actions[0].files);
      }
      ReplayKeepsAudioFile(locking, Perform(locking, s, actions[0]), actions[1..]);
    }
  }

  /** The selected language is always one the select lists. */
  lemma {:induction false} ReplayKeepsListedLanguage(locking: Locking, s: State, actions: seq<Action>)
    requires s.selectedLanguage in Languages
    ensures Replay(locking, s, actions).selectedLanguage in Languages
    decreases |actions|
  {
    if |actions| > 0 {
      ReplayKeepsListedLanguage(locking, Perform(locking, s, actions[0]), actions[1..]);
    }
  }

  /**
   * From mount, whatever the user does: the button reads "Start Processing"
   * first, and the page is never left warming up, never holds a non-audio
   * file, and always has a listed language.
   */
  lemma MountInvariants(locking: Locking, actions: seq<Action>)
    ensures LabelText(ButtonLabel(Initial)) == "Start Processing" && !ButtonEnabled(Initial)
    ensures var r := Replay(locking, Initial, actions);
      Settled(r) && AudioUpload.AudioOrNone(r.selectedFile) && r.selectedLanguage in Languages
  {
    ReplayStaysSettled(locking, Initial, actions);
    ReplayKeepsAudioFile(locking, Initial, actions);
    ReplayKeepsListedLanguage(locking, Initial, actions);
  }
}
